=== FILE: README.md ===
# CloudOps AI Insights — a Dafny model of the insights engine

The service exposes `GET /insights/now`. The handler runs three Prometheus
instant queries for node-wide CPU, memory and disk utilisation in percent.
It reads one number from each reply with `q`, with NaN when there is no
usable value. Then a fixed rule set turns the three numbers into an ordered
list of insights. Each insight has a title, a severity (`info`, `warning` or
`critical`), a description and recommendations. A constant "Cost heuristic"
insight always comes last. The reply also echoes the three numbers under
`raw`.

This project models that core as pure functions and proves its contracts:

- `wrappers.dfy`: `Option`, usable with `:-`.
- `floats.dfy`: Python floats. A finite value is its exact real. The two
  infinities are separate cases. `NaN` plays the role of "missing". The
  module defines IEEE equality and comparisons against a threshold.
- `pyjson.dfy`: the decoded JSON body. It also models the Python operations
  `q` applies to that body: `dict.get`, subscripts with negative indices,
  truthiness and `float()`. Each of these yields `None` where Python would
  raise, except for the overflow of `float()` on huge JSON integers (see
  "Left out").
- `promquery.dfy`: `q`, the way it reads a query reply. The model follows
  the reply layout of the Prometheus HTTP API (`status`,
  `data.resultType`, `data.result`, `value`/`values`). It also includes
  builders for such replies, and lemmas about what `q` returns and when it
  returns NaN.
- `insights.dfy`: the rule engine. This is one rule per resource, with its
  thresholds, plus the ten title templates with their texts. It includes
  `insights_now` after the queries and the properties of its output:
  cardinality, ordering, per-resource bands and the fixed tail.
- `service.dfy`: `safe`, and the whole handler from the three query outcomes
  to the response. It also holds the same handler with the scalar case of
  `q` handled (see "Findings"), and the proof that the two handlers agree
  whenever no reply is a scalar result.

Modelling choices:

- Outside I/O becomes parameters. The HTTP exchange becomes an
  `HttpOutcome`: no response, or a status code plus a body that may have
  failed to decode. Parsing a sample's value text with Python's `float()`
  becomes a parameter `parse: string -> Option<Float>`.
- A title is a template plus the percentage it shows. `Title.Render` takes
  the `{:.1f}` formatter as a parameter.
- In the code, an insight's description and recommendations are always the
  fixed texts that go with its title. So `Insight` stores the title and the
  severity, and it derives the two texts from the title
  (`Insight.Description`, `Insight.Recommendations`).
- The handler runs its three queries on every request. It keeps no cache
  and never retries a query. `insights_now` returns status "ok" and the
  severities it uses are info, warning and critical.

## Model

| member | source | states |
|---|---|---|
| Floats.SelfInequalityIsNaN | app/ai-insights/main.py:61 | the check `x != x` holds exactly when the value is NaN, so a missing metric is a NaN test |
| Floats.Float.Gt | app/ai-insights/main.py:72-140 | `x > t` (as in `cpu > 85`) holds exactly when `x` is at or above `t` in the IEEE order and not equal to it, so +inf is above every threshold and NaN above none |
| Floats.Float.Lt | app/ai-insights/main.py:82-140 | `x < t` (as in `cpu < 20`) holds exactly when `x` is at or below `t` in the IEEE order and not equal to it, so -inf is below every threshold and NaN below none |
| Floats.LeIsOrder | app/ai-insights/main.py:72-140 | the IEEE `<=` is a total order on the non-NaN floats with the infinities at the ends and finite values ordered as reals; NaN is related to nothing |
| Floats.ComparisonMonotone | app/ai-insights/main.py:72-140 | a threshold test `x > t` stays true when `x` grows and `x < t` stays true when `x` shrinks, in the IEEE order |
| PyJson.Truthy | app/ai-insights/main.py:31-34 | Python's truth value, as `if not result` and the `or` on `value` use it: the falsy values are exactly None, False, zero, the empty string, the empty list and the empty dict |
| PyJson.Get | app/ai-insights/main.py:28 | `.get(key, default)` works only on dicts; it yields the key's value when present and the default otherwise |
| PyJson.Field | app/ai-insights/main.py:30 | `x["key"]` works only on a dict that holds the key |
| PyJson.Position | app/ai-insights/main.py:34 | a Python index is valid exactly within minus the length up to length minus one; a negative index counts back from the end |
| PyJson.At | app/ai-insights/main.py:34-35 | integer subscripts work on lists and strings only; they pick the element at the Python position and fail out of range |
| PyJson.AtEnds | app/ai-insights/main.py:34 | on a non-empty list, index -1 is the last element and index 0 the first |
| PyJson.ToFloat | app/ai-insights/main.py:35 | `float()` keeps numbers (taken as exact values), maps booleans to 1.0/0.0, parses strings, and raises for None, lists and dicts |
| PromQuery.Body | app/ai-insights/main.py:25-27 | a decoded body exists only when the request got a reply, the code is not 4xx/5xx and the body decodes as JSON |
| PromQuery.OrNaN | app/ai-insights/main.py:29-37 | no value becomes NaN; a value is passed through |
| PromQuery.SuccessData | app/ai-insights/main.py:28-30 | the data part is reached exactly when the body is a dict whose status is "success" and which has a `data` key |
| PromQuery.SelectPair | app/ai-insights/main.py:34 | the pair is the first sample's `value` when truthy, else the last entry of `values`, else Python's None; non-dict samples fail |
| PromQuery.InstantValue | app/ai-insights/main.py:22-37 | `q` as written: NaN when there is no reply, on 4xx/5xx, when the body does not decode, or when it is not a "success" dict whose `data.result` is a non-empty list; for such a body, `float(val[1])` for the pair selected from the first sample, or NaN when a step of that raises |
| PromQuery.VectorRoundTrip | app/ai-insights/main.py:30-35 | for an instant-vector reply, `q` returns the parsed value text of the first sample (NaN if it does not parse), whatever samples follow |
| PromQuery.MatrixRoundTrip | app/ai-insights/main.py:34-35 | for a range-vector reply, `q` returns the parsed text of the last point of the first series |
| PromQuery.EmptyResultIsMissing | app/ai-insights/main.py:31-32 | an empty result list yields NaN |
| PromQuery.FailedStatusIsMissing | app/ai-insights/main.py:28-29 | a body whose status is not "success" yields NaN |
| PromQuery.ErrorBodyIsMissing | app/ai-insights/main.py:28-29 | the Prometheus error reply (`status: "error"`) yields NaN |
| PromQuery.NoPairIsMissing | app/ai-insights/main.py:34-37 | a first sample with neither a truthy `value` nor a `values` key yields NaN |
| PromQuery.ValueProvenance | app/ai-insights/main.py:28-35 | conversely, a non-NaN result implies a decoded "success" body with a non-empty result list whose first element is a dict; the result is `float(val[1])` for the selected pair |
| PromQuery.ScalarResultIsMissing | app/ai-insights/main.py:22-37 | as written, a scalar reply `[ts, "text"]` always yields NaN, whatever the text |
| PromQuery.InstantValueScalarAware | app/ai-insights/main.py:22-37 | the corrected `q`: for a "success" body whose `data.resultType` is "scalar", `float(result[1])`, or NaN when that raises; for every other outcome, what `q` as written returns |
| PromQuery.ScalarRoundTrip | app/ai-insights/main.py:23 | the corrected `q` returns the parsed text of a scalar reply, as the docstring promises |
| PromQuery.ScalarAwareAgreesElsewhere | app/ai-insights/main.py:28-37 | on every reply that is not a scalar result, the corrected `q` equals `q` as written |
| Insights.Title.Render | app/ai-insights/main.py:74-142 | a title starts with its template's text; a usage title continues with " (", the formatted percentage and "%)", and the other titles are the template's text alone |
| Insights.PrefixFree | app/ai-insights/main.py:63-151 | no title template's text starts another template's text, unless both are the same template |
| Insights.RenderIdentifies | app/ai-insights/main.py:63-151 | two equal rendered titles come from the same template, hence the same resource and severity; for usage titles they also show the same formatted percentage |
| Insights.Insight.Description | app/ai-insights/main.py:62-158 | every template has a non-empty fixed description |
| Insights.Insight.Recommendations | app/ai-insights/main.py:62-158 | every template has one or two fixed recommendations |
| Insights.Severity.Name | app/ai-insights/main.py:13 | every severity is written as one of "info", "warning" or "critical" |
| Insights.ParseSeverity | app/ai-insights/main.py:13 | the only severity strings are "info", "warning" and "critical"; a parsed severity prints back as the same string |
| Insights.SeverityNameRoundTrip | app/ai-insights/main.py:13 | each severity's name parses back to that severity |
| Insights.LowThreshold | app/ai-insights/main.py:72-140 | each low threshold (20, 30, 50) lies below its resource's high threshold (85, 85, 80), so the elif branches never overlap |
| Insights.Evaluate | app/ai-insights/main.py:61-146 | each resource gives at most one insight, and only about that resource. It gives none exactly when the value is finite and within [low, high] inclusive |
| Insights.EvaluateSeverity | app/ai-insights/main.py:61-146 | the emitted insight is a warning exactly for NaN, critical exactly above the high threshold and info exactly below the low one. A usage title carries the value, and the severity is the template's |
| Insights.Blocks | app/ai-insights/main.py:61-146 | the three resource blocks together hold at most three insights, in strictly rising rank: CPU, then memory, then disk |
| Insights.InsightsNow | app/ai-insights/main.py:57-165 | the status is "ok", `raw` echoes the three inputs under their keys, there are 1 to 4 insights, the last is the cost hint, and ranks rise strictly (CPU, then memory, then disk, then cost) |
| Insights.RanksIncreasing | app/ai-insights/main.py:61-146 | the three per-resource blocks, concatenated, rise strictly in rank and stay below 3, the cost hint's rank |
| Insights.AboutConcat | app/ai-insights/main.py:57-159 | picking the insights about one resource commutes with appending to the list |
| Insights.ResourceInsights | app/ai-insights/main.py:61-146 | the insights about a resource in the output are exactly what its own block gives for its own value |
| Insights.MissingMetricWarns | app/ai-insights/main.py:61-128 | a NaN metric gives exactly one insight for that resource, a warning titled "No CPU metrics", "No Memory metrics" or "No Disk metrics" |
| Insights.CpuRule | app/ai-insights/main.py:72-91 | CPU above 85 gives one critical insight, below 20 one info insight, and 20 to 85 inclusive none |
| Insights.MemoryRule | app/ai-insights/main.py:101-120 | memory above 85 gives one critical insight, below 30 one info insight, and 30 to 85 inclusive none |
| Insights.DiskRule | app/ai-insights/main.py:130-146 | disk above 80 gives one critical insight, below 50 one info insight, and 50 to 80 inclusive none |
| Insights.InsightCount | app/ai-insights/main.py:57-159 | the output length is one plus the number of resources outside their middle band |
| Insights.InsightsFollowTemplates | app/ai-insights/main.py:62-158 | every emitted insight has the severity of its title's template; its description and recommendations are that template's texts |
| Insights.SeverityMonotone | app/ai-insights/main.py:72-146 | in the IEEE order (infinities included, NaN excluded), raising a value never leaves the critical band, and lowering it never leaves the info band |
| Service.Safe | app/ai-insights/main.py:39-40 | a float is kept, an int is kept at its value, anything else becomes the default |
| Service.Percentage | app/ai-insights/main.py:53-55 | `safe(q(...))` is the value `q` as written returns, because `q` always returns a float |
| Service.InsightsFromBackend | app/ai-insights/main.py:53-165 | the handler as written: status "ok"; `raw` holds each query's `q` value under its key; for every resource, the insights about it are exactly what its rule gives for that value; there are 1 to 4 insights and the cost hint is last |
| Service.EveryResourceInsights | app/ai-insights/main.py:61-146 | for each of the three resources, the insights about it in the output are what its own rule gives for its own value |
| Service.InsightsFromBackendScalarAware | app/ai-insights/main.py:53-165 | the handler with the corrected `q`: the same promises as the handler as written, with each value read by the corrected `q` |
| Service.HandlersAgree | app/ai-insights/main.py:22-37 | when none of the three replies is a scalar result, the corrected handler gives the same response as the handler as written |
| Service.BackendDownWarnsThrice | app/ai-insights/main.py:53-159 | when the backend is unreachable, the insights are the CPU, memory and disk "No … metrics" warnings, then the cost hint |
| Service.VectorPercentage | app/ai-insights/main.py:22-37 | on a 2xx/3xx instant-vector reply, with any samples after the first, the reply is not a scalar result and both the as-written and the corrected `q` give the parsed value text of the first sample |
| Service.VectorQueries | app/ai-insights/main.py:53-165 | for three independent instant-vector replies, the handler as written gives the rule engine applied to the three parsed first-sample texts |
| Service.VectorQueriesScalarAware | app/ai-insights/main.py:22-37 | on the same three replies the corrected handler gives that same response |

## Left out

- HTTP plumbing: the FastAPI app, the routes `/healthz` and `/insights/now`, pydantic validation, and the JSON encoding of the response (lines 3-4, 9, 42-47). These are framework code. The encoder refuses NaN (Starlette's `JSONResponse` calls `json.dumps` with `allow_nan=False`), so a reply with a missing metric in `raw` is likely to reach the client as a 500 rather than as the "ok" response the model describes.
- The outbound request in `q`: `requests.get`, the base URL from `PROM_URL`, the 8-second timeout, `raise_for_status` and `r.json()` (lines 7, 25-27). They are network I/O. The model keeps only their outcome, as `PromQuery.HttpOutcome`.
- The PromQL query strings (lines 49-51). They are opaque text that the backend evaluates.
- The `{:.1f}` formatting in titles. It is floating-point formatting, so `Title.Render` takes the formatter as a parameter.
- The parsing of a sample's value text by `float()`. It is floating-point parsing, so it is the parameter `parse`. For that reason finite doubles appear as the reals they denote.
- PyJson.ToFloat: a JSON number is taken as the exact value it denotes. Python decodes an integer literal to an `int`, and `float()` of an `int` rounds above 2^53 and raises `OverflowError` above about 1.8e308, so `q` would give NaN where the model gives that number. The Prometheus HTTP API always sends sample values as strings, so only a reply that breaks the API is affected.
- Insights.Insight.Description: the contract promises only that the description is non-empty, not its wording. The wording is in the definition.
- Insights.Insight.Recommendations: the contract promises only that there are one or two recommendations, not their wording. The wording is in the definition.
- Service.Safe: an int or bool argument is turned into the float of the same value. Python returns the int or bool object itself. The only call site passes the float that `q` returns, so this never matters.

## Findings

| source | as written | input that shows it | evidently intended | confidence | as-written member | corrected member |
|---|---|---|---|---|---|---|
| app/ai-insights/main.py:23-34 | `result[0].get("value")` treats every result as a list of sample dicts. A scalar result is the bare pair `[ts, "text"]`, so `result[0]` is the timestamp, `.get` raises, and `q` returns NaN | the reply `{"status":"success","data":{"resultType":"scalar","result":[1700000000.0,"42"]}}` with code 200 | the docstring says `q` returns "the first scalar/vector value", so this reply should give 42.0 | medium; not executed. The three node-wide queries return vectors, which `Service.VectorQueries` and `Service.VectorQueriesScalarAware` show both readings treat alike | PromQuery.InstantValue with PromQuery.ScalarResultIsMissing | PromQuery.InstantValueScalarAware with PromQuery.ScalarRoundTrip and PromQuery.ScalarAwareAgreesElsewhere, used by Service.InsightsFromBackendScalarAware |

=== FILE: floats.dfy ===
/**
 * Python floats as the insights engine sees them.
 *
 * A finite double is modelled by the exact real it denotes. The engine only
 * compares its floats with small integer thresholds, and such comparisons are
 * exact on doubles, so nothing is lost. The two infinities and NaN are kept as
 * constructors of their own: Prometheus may report "+Inf", "-Inf" or "NaN" as
 * a sample value and Python's float() accepts all three.
 */
module Floats {

  datatype Float = Finite(r: real) | PosInf | NegInf | NaN {

    /** IEEE equality `x == y`: NaN is equal to nothing, not even itself. */
    predicate Eq(y: Float) {
      match (this, y)
      case (Finite(a), Finite(b)) => a == b
      case (PosInf, PosInf) => true
      case (NegInf, NegInf) => true
      case _ => false
    }

    /** IEEE `x <= y`: false whenever either side is NaN. */
    predicate Le(y: Float) {
      && !NaN? && !y.NaN?
      && (NegInf? || y.PosInf? || (Finite? && y.Finite? && r <= y.r))
    }

    /** IEEE `x > t` for a finite threshold `t`: at or above `t` and not equal to it. */
    predicate Gt(t: real): (b: bool)
      ensures b <==> Finite(t).Le(this) && !Eq(Finite(t))
    {
      match this
      case Finite(a) => a > t
      case PosInf => true
      case NegInf => false
      case NaN => false
    }

    /** IEEE `x < t` for a finite threshold `t`: at or below `t` and not equal to it. */
    predicate Lt(t: real): (b: bool)
      ensures b <==> Le(Finite(t)) && !Eq(Finite(t))
    {
      match this
      case Finite(a) => a < t
      case PosInf => false
      case NegInf => true
      case NaN => false
    }
  }

  /** The NaN test `x != x` holds exactly of NaN. */
  lemma SelfInequalityIsNaN(x: Float)
    ensures !x.Eq(x) <==> x.NaN?
  {
  }

  /**
   * `<=` is the usual order on the non-NaN floats: reflexive, antisymmetric
   * up to IEEE equality, transitive and total, with the infinities at the
   * ends and the finite values in the order of their reals. NaN is related
   * to nothing.
   */
  lemma LeIsOrder(x: Float, y: Float, z: Float)
    ensures x.Le(y) ==> !x.NaN? && !y.NaN?
    ensures !x.NaN? ==> x.Le(x) && NegInf.Le(x) && x.Le(PosInf)
    ensures x.Le(y) && y.Le(x) ==> x.Eq(y)
    ensures x.Le(y) && y.Le(z) ==> x.Le(z)
    ensures !x.NaN? && !y.NaN? ==> x.Le(y) || y.Le(x)
    ensures x.Finite? && y.Finite? ==> (x.Le(y) <==> x.r <= y.r)
  {
  }

  /** `>` against a threshold is upward closed and `<` is downward closed. */
  lemma ComparisonMonotone(x: Float, y: Float, t: real)
    requires x.Le(y)
    ensures x.Gt(t) ==> y.Gt(t)
    ensures y.Lt(t) ==> x.Lt(t)
  {
  }
}

=== FILE: insights.dfy ===
/**
 * The rule engine of `insights_now` (lines 57-165 of app/ai-insights/main.py):
 * three node-wide utilisation percentages, each possibly NaN, become an
 * ordered list of insights followed by a fixed cost hint.
 */
module Insights {
  import opened Wrappers
  import opened Floats

  datatype Resource = Cpu | Memory | Disk {
    /** Position of the resource's block in `insights_now`. */
    function Index(): nat {
      match this
      case Cpu => 0
      case Memory => 1
      case Disk => 2
    }
  }

  datatype Severity = Info | Warning | Critical {
    /** The string stored in `Insight.severity`. */
    function Name(): (s: string)
      ensures s == "info" || s == "warning" || s == "critical"
    {
      match this
      case Info => "info"
      case Warning => "warning"
      case Critical => "critical"
    }
  }

  /** Reads a severity string back; only the three documented names are severities. */
  function ParseSeverity(s: string): (r: Option<Severity>)
    ensures r.Some? ==> r.value.Name() == s
    ensures r.None? <==> s != "info" && s != "warning" && s != "critical"
  {
    if s == "info" then Some(Info)
    else if s == "warning" then Some(Warning)
    else if s == "critical" then Some(Critical)
    else None
  }

  /** Severity names are distinct: each reads back as itself. */
  lemma SeverityNameRoundTrip(sev: Severity)
    ensures ParseSeverity(sev.Name()) == Some(sev)
  {
  }

  /**
   * The ten title templates. A usage title carries the percentage that
   * `insights_now` formats into it with `{:.1f}`.
   */
  datatype Title =
    | NoMetrics(resource: Resource)
    | HighUsage(resource: Resource, pct: Float)
    | LowUsage(resource: Resource, pct: Float)
    | CostHeuristic
  {
    /** The insight is one of the three a resource's block can emit. */
    predicate Concerns(k: Resource) {
      !CostHeuristic? && resource == k
    }

    /** Position in the output: the resource blocks in order, the cost hint last. */
    function Rank(): nat {
      if CostHeuristic? then 3 else resource.Index()
    }

    /** The literal text of the title, before any formatted percentage. */
    function Prefix(): string {
      match this
      case NoMetrics(Cpu) => "No CPU metrics"
      case NoMetrics(Memory) => "No Memory metrics"
      case NoMetrics(Disk) => "No Disk metrics"
      case HighUsage(Cpu, _) => "High CPU usage"
      case HighUsage(Memory, _) => "High Memory usage"
      case HighUsage(Disk, _) => "Disk usage high"
      case LowUsage(Cpu, _) => "Low CPU headroom"
      case LowUsage(Memory, _) => "Low Memory usage"
      case LowUsage(Disk, _) => "Disk usage healthy"
      case CostHeuristic => "Cost heuristic"
    }

    /** The same template: same kind of rule and same place in the output. */
    predicate SameTemplate(other: Title) {
      && NoMetrics? == other.NoMetrics? && HighUsage? == other.HighUsage? && LowUsage? == other.LowUsage?
      && Rank() == other.Rank()
    }

    /**
     * The title string, given the `{:.1f}` formatter: the template's text,
     * followed for the usage titles by the formatted percentage in
     * parentheses and a percent sign.
     */
    function Render(fmt: Float -> string): (s: string)
      ensures Prefix() <= s
      ensures HighUsage? || LowUsage? ==> s[|Prefix()|..] == " (" + fmt(pct) + "%)"
      ensures !(HighUsage? || LowUsage?) ==> s == Prefix()
    {
      if HighUsage? || LowUsage? then Prefix() + " (" + fmt(pct) + "%)" else Prefix()
    }
  }

  /** No template text starts another one. */
  lemma PrefixFree(t1: Title, t2: Title)
    requires t1.Prefix() <= t2.Prefix()
    ensures t1.SameTemplate(t2)
  {
    // The characters at 0, 3, 5 and 12 already tell the ten templates apart.
    assert t1.Prefix()[0] == t2.Prefix()[0] && t1.Prefix()[3] == t2.Prefix()[3];
    assert t1.Prefix()[5] == t2.Prefix()[5] && t1.Prefix()[12] == t2.Prefix()[12];
  }

  /**
   * A rendered title identifies its template, and for the usage titles the
   * formatted percentage as well.
   */
  lemma RenderIdentifies(t1: Title, t2: Title, fmt: Float -> string)
    requires t1.Render(fmt) == t2.Render(fmt)
    ensures t1.SameTemplate(t2)
    ensures t1.HighUsage? || t1.LowUsage? ==> fmt(t1.pct) == fmt(t2.pct)
  {
    var s := t1.Render(fmt);
    if |t1.Prefix()| <= |t2.Prefix()| {
      assert t1.Prefix() <= t2.Prefix() by { assert t2.Prefix() <= s; }
      PrefixFree(t1, t2);
    } else {
      assert t2.Prefix() <= t1.Prefix() by { assert t1.Prefix() <= s; }
      PrefixFree(t2, t1);
    }
    if t1.HighUsage? || t1.LowUsage? {
      var tail := " (" + fmt(t1.pct) + "%)";
      assert s[|t1.Prefix()|..] == tail == " (" + fmt(t2.pct) + "%)";
      assert fmt(t1.pct) == tail[2..|tail| - 2];
    }
  }

  /**
   * An insight as `insights_now` builds it (lines 11-15). Its description and
   * recommendations are fixed texts of its title's template, so they are
   * derived from the title rather than stored.
   */
  datatype Insight = Insight(title: Title, severity: Severity) {

    /** The fixed description of the title's template. */
    function Description(): (d: string)
      ensures d != []
    {
      match title
      case NoMetrics(k) => MissingDescription(k)
      case HighUsage(k, _) => HighDescription(k)
      case LowUsage(k, _) => LowDescription(k)
      case CostHeuristic => "Approximate instance rightsizing suggestion based on CPU/Memory."
    }

    /** The fixed recommendations of the title's template: one or two of them. */
    function Recommendations(): (r: seq<string>)
      ensures 1 <= |r| <= 2
    {
      match title
      case NoMetrics(k) => MissingRecommendations(k)
      case HighUsage(k, _) => HighRecommendations(k)
      case LowUsage(k, _) => LowRecommendations(k)
      case CostHeuristic =>
        ["If CPU<20% and Mem<30% for 24h: consider t3.small (~50% cheaper).",
         "If CPU>85% or Mem>85% often: consider t3.large or add a node."]
    }
  }

  function MissingDescription(k: Resource): (d: string)
    ensures d != []
  {
    match k
    case Cpu => "Prometheus query returned no CPU data. Node exporter or scrape config may be missing."
    case Memory => "Prometheus query returned no Memory data."
    case Disk => "Prometheus query returned no Disk data for '/'."
  }

  function HighDescription(k: Resource): (d: string)
    ensures d != []
  {
    match k
    case Cpu => "Sustained CPU > 85% can cause throttling and latency."
    case Memory => "Memory pressure increases OOM risk."
    case Disk => "Running low on disk can crash pods and databases."
  }

  function LowDescription(k: Resource): (d: string)
    ensures d != []
  {
    match k
    case Cpu => "CPU usage is consistently low\U{2014}over-provisioning likely."
    case Memory => "Plenty of unused memory\U{2014}potential cost optimization."
    case Disk => "No immediate storage pressure."
  }

  function MissingRecommendations(k: Resource): (r: seq<string>)
    ensures 1 <= |r| <= 2
  {
    match k
    case Cpu =>
      ["Verify kube-prometheus-stack is installed and node-exporter is running.",
       "Check Prometheus targets page for scrape errors."]
    case Memory => ["Confirm node-exporter and proper scrape configs."]
    case Disk => ["Verify node-exporter mount points and filesystem metrics."]
  }

  function HighRecommendations(k: Resource): (r: seq<string>)
    ensures 1 <= |r| <= 2
  {
    match k
    case Cpu =>
      ["Scale up EC2 instance (t3.medium \U{2192} t3.large) or add a node.",
       "Enable HPA for busy workloads (target 60\U{2013}70% CPU)."]
    case Memory =>
      ["Increase instance memory (t3.medium\U{2192}t3.large).",
       "Tune pod requests/limits; enable VPA if appropriate."]
    case Disk =>
      ["Expand root volume (gp3) from 30GB to 50GB+, then grow FS.",
       "Prune images and old logs; add retention policies."]
  }

  function LowRecommendations(k: Resource): (r: seq<string>)
    ensures 1 <= |r| <= 2
  {
    match k
    case Cpu =>
      ["Consider downsizing to t3.small or t3.micro to save cost.",
       "Consolidate low-traffic workloads."]
    case Memory =>
      ["Downsize instance or pack more workloads.",
       "Reduce pod memory limits if set too high."]
    case Disk => ["Keep image pruning and log rotation in place."]
  }

  /** The endpoint's response (lines 17-20): status, insights, and the raw percentages. */
  datatype InsightResponse = InsightResponse(status: string, insights: seq<Insight>, raw: map<string, Float>)

  /** Percentages strictly above this are critical. */
  function HighThreshold(k: Resource): real {
    match k
    case Cpu => 85.0
    case Memory => 85.0
    case Disk => 80.0
  }

  /** Percentages strictly below this are reported as low usage. */
  function LowThreshold(k: Resource): (t: real)
    ensures 0.0 < t < HighThreshold(k)
  {
    match k
    case Cpu => 20.0
    case Memory => 30.0
    case Disk => 50.0
  }

  /** Severity each template is emitted with. */
  function SeverityOf(t: Title): Severity {
    match t
    case NoMetrics(_) => Warning
    case HighUsage(_, _) => Critical
    case LowUsage(_, _) => Info
    case CostHeuristic => Info
  }

  /** The insight emitted for a title template. */
  function MakeInsight(t: Title): Insight {
    Insight(t, SeverityOf(t))
  }

  /** The fixed cost hint appended last (lines 150-159). */
  function CostHint(): Insight {
    MakeInsight(CostHeuristic)
  }

  /**
   * One resource's block of `insights_now`: a NaN value warns that the metric
   * is missing, a value above the high threshold is critical, one below the
   * low threshold is informational, and the middle band emits nothing.
   */
  function Evaluate(k: Resource, v: Float): (r: seq<Insight>)
    ensures |r| <= 1
    ensures forall i | i in r :: i.title.Concerns(k)
    ensures r == [] <==> v.Finite? && LowThreshold(k) <= v.r <= HighThreshold(k)
  {
    if v.NaN? then [MakeInsight(NoMetrics(k))]
    else if v.Gt(HighThreshold(k)) then [MakeInsight(HighUsage(k, v))]
    else if v.Lt(LowThreshold(k)) then [MakeInsight(LowUsage(k, v))]
    else []
  }

  /**
   * The insight a block emits is a warning exactly for NaN, critical exactly
   * above the high threshold and informational exactly below the low one; a
   * usage title carries the value.
   */
  lemma EvaluateSeverity(k: Resource, v: Float)
    requires Evaluate(k, v) != []
    ensures var i := Evaluate(k, v)[0];
            && (i.severity == Warning <==> v.NaN?)
            && (i.severity == Critical <==> v.Gt(HighThreshold(k)))
            && (i.severity == Info <==> v.Lt(LowThreshold(k)))
            && (!v.NaN? ==> (i.title.HighUsage? || i.title.LowUsage?) && i.title.pct == v)
            && i == MakeInsight(i.title)
  {
  }

  /** The block for a value in each band. */
  lemma EvaluateCases(k: Resource, v: Float)
    ensures v.NaN? ==> Evaluate(k, v) == [Insight(NoMetrics(k), Warning)]
    ensures v.Gt(HighThreshold(k)) ==> Evaluate(k, v) == [Insight(HighUsage(k, v), Critical)]
    ensures v.Lt(LowThreshold(k)) ==> Evaluate(k, v) == [Insight(LowUsage(k, v), Info)]
    ensures v.Finite? && LowThreshold(k) <= v.r <= HighThreshold(k) ==> Evaluate(k, v) == []
  {
  }

  /** The three resource blocks in order: CPU, memory, disk. */
  function Blocks(cpu: Float, mem: Float, disk: Float): (s: seq<Insight>)
    ensures |s| <= 3
    ensures forall i, j | 0 <= i < j < |s| :: s[i].title.Rank() < s[j].title.Rank() < 3
    ensures forall i | 0 <= i < |s| :: s[i].title.Rank() < 3
  {
    var a := Evaluate(Cpu, cpu);
    var b := Evaluate(Memory, mem);
    var c := Evaluate(Disk, disk);
    RanksIncreasing(a, b, c);
    a + b + c
  }

  /** `insights_now` after the three queries: CPU, memory and disk blocks, then the cost hint. */
  function InsightsNow(cpu: Float, mem: Float, disk: Float): (r: InsightResponse)
    ensures r.status == "ok"
    ensures r.raw.Keys == {"cpu_pct", "mem_pct", "disk_pct"}
    ensures r.raw["cpu_pct"] == cpu && r.raw["mem_pct"] == mem && r.raw["disk_pct"] == disk
    ensures 1 <= |r.insights| <= 4
    ensures r.insights[|r.insights| - 1] == CostHint()
    ensures forall i, j | 0 <= i < j < |r.insights| :: r.insights[i].title.Rank() < r.insights[j].title.Rank()
  {
    var blocks := Blocks(cpu, mem, disk);
    var all := blocks + [CostHint()];
    assert forall i | 0 <= i < |blocks| :: all[i] == blocks[i];
    InsightResponse("ok", all, map["cpu_pct" := cpu, "mem_pct" := mem, "disk_pct" := disk])
  }

  /** Each list concerns only its resource and holds at most one insight, so their concatenation climbs in rank. */
  lemma RanksIncreasing(a: seq<Insight>, b: seq<Insight>, c: seq<Insight>)
    requires |a| <= 1 && |b| <= 1 && |c| <= 1
    requires forall i | i in a :: i.title.Concerns(Cpu)
    requires forall i | i in b :: i.title.Concerns(Memory)
    requires forall i | i in c :: i.title.Concerns(Disk)
    ensures var all := a + b + c;
            forall i, j | 0 <= i < j < |all| :: all[i].title.Rank() < all[j].title.Rank() < 3
  {
    var all := a + b + c;
    forall i | 0 <= i < |all|
      ensures all[i].title.Rank() == (if i < |a| then 0 else if i < |a| + |b| then 1 else 2)
    {
      if i < |a| {
        assert all[i] in a;
      } else if i < |a| + |b| {
        assert all[i] == b[i - |a|];
        assert all[i] in b;
      } else {
        assert all[i] == c[i - |a| - |b|];
        assert all[i] in c;
      }
    }
  }

  /** The insights of `s` that concern resource `k`, in order. */
  function About(s: seq<Insight>, k: Resource): (r: seq<Insight>)
    ensures |r| <= |s|
    ensures forall i | i in r :: i in s && i.title.Concerns(k)
    ensures forall i | i in s && i.title.Concerns(k) :: i in r
  {
    if s == [] then []
    else (if s[0].title.Concerns(k) then [s[0]] else []) + About(s[1..], k)
  }

  lemma {:induction false} AboutConcat(s: seq<Insight>, t: seq<Insight>, k: Resource)
    ensures About(s + t, k) == About(s, k) + About(t, k)
  {
    if s == [] {
      assert s + t == t;
    } else {
      assert (s + t)[1..] == s[1..] + t;
      AboutConcat(s[1..], t, k);
    }
  }

  /** Filtering keeps a list whose insights all concern the resource. */
  lemma {:induction false} AboutAll(s: seq<Insight>, k: Resource)
    requires forall i | i in s :: i.title.Concerns(k)
    ensures About(s, k) == s
  {
    if s != [] {
      assert s == [s[0]] + s[1..];
      AboutAll(s[1..], k);
    }
  }

  /** Filtering empties a list none of whose insights concern the resource. */
  lemma {:induction false} AboutNone(s: seq<Insight>, k: Resource)
    requires forall i | i in s :: !i.title.Concerns(k)
    ensures About(s, k) == []
  {
    if s != [] {
      assert s == [s[0]] + s[1..];
      AboutNone(s[1..], k);
    }
  }

  lemma AboutSingleton(x: Insight, k: Resource)
    ensures About([x], k) == if x.title.Concerns(k) then [x] else []
  {
    assert [x][1..] == [];
  }

  function ValueOf(k: Resource, cpu: Float, mem: Float, disk: Float): Float {
    match k
    case Cpu => cpu
    case Memory => mem
    case Disk => disk
  }

  /** The insights concerning a resource are exactly what its block emits for its own value. */
  lemma ResourceInsights(cpu: Float, mem: Float, disk: Float, k: Resource)
    ensures About(InsightsNow(cpu, mem, disk).insights, k) == Evaluate(k, ValueOf(k, cpu, mem, disk))
  {
    InsightsNowBlocks(cpu, mem, disk);
    AboutBlocks(Evaluate(Cpu, cpu), Evaluate(Memory, mem), Evaluate(Disk, disk), k);
  }

  lemma InsightsNowBlocks(cpu: Float, mem: Float, disk: Float)
    ensures InsightsNow(cpu, mem, disk).insights
            == Evaluate(Cpu, cpu) + Evaluate(Memory, mem) + Evaluate(Disk, disk) + [CostHint()]
  {
  }

  /** Filtering the three blocks and the cost hint by a resource leaves that resource's block. */
  lemma AboutBlocks(a: seq<Insight>, b: seq<Insight>, c: seq<Insight>, k: Resource)
    requires forall i | i in a :: i.title.Concerns(Cpu)
    requires forall i | i in b :: i.title.Concerns(Memory)
    requires forall i | i in c :: i.title.Concerns(Disk)
    ensures About(a + b + c + [CostHint()], k) == match k case Cpu => a case Memory => b case Disk => c
  {
    AboutConcat4(a, b, c, [CostHint()], k);
    AboutSingleton(CostHint(), k);
    match k
    case Cpu =>
      AboutAll(a, k); AboutNone(b, k); AboutNone(c, k);
      assert a + [] + [] + [] == a;
    case Memory =>
      AboutNone(a, k); AboutAll(b, k); AboutNone(c, k);
      assert [] + b + [] + [] == b;
    case Disk =>
      AboutNone(a, k); AboutNone(b, k); AboutAll(c, k);
      assert [] + [] + c + [] == c;
  }

  lemma AboutConcat4(a: seq<Insight>, b: seq<Insight>, c: seq<Insight>, d: seq<Insight>, k: Resource)
    ensures About(a + b + c + d, k) == About(a, k) + About(b, k) + About(c, k) + About(d, k)
  {
    AboutConcat(a + b + c, d, k);
    AboutConcat(a + b, c, k);
    AboutConcat(a, b, k);
  }

  /**
   * A missing (NaN) metric yields exactly one insight for that resource: a
   * warning titled "No CPU metrics", "No Memory metrics" or "No Disk metrics".
   */
  lemma MissingMetricWarns(cpu: Float, mem: Float, disk: Float, k: Resource)
    requires ValueOf(k, cpu, mem, disk).NaN?
    ensures var about := About(InsightsNow(cpu, mem, disk).insights, k);
            && |about| == 1
            && about[0].severity == Warning
            && about[0].title.Prefix() == (match k case Cpu => "No CPU metrics"
                                                   case Memory => "No Memory metrics"
                                                   case Disk => "No Disk metrics")
  {
    ResourceInsights(cpu, mem, disk, k);
  }

  /**
   * CPU: above 85 is one critical insight, below 20 one informational insight,
   * and from 20 to 85 inclusive nothing.
   */
  lemma CpuRule(cpu: Float, mem: Float, disk: Float)
    ensures var about := About(InsightsNow(cpu, mem, disk).insights, Cpu);
            && (cpu.Gt(85.0) ==> |about| == 1 && about[0].severity == Critical && about[0].title == HighUsage(Cpu, cpu))
            && (cpu.Lt(20.0) ==> |about| == 1 && about[0].severity == Info && about[0].title == LowUsage(Cpu, cpu))
            && (cpu.Finite? && 20.0 <= cpu.r <= 85.0 ==> about == [])
  {
    ResourceInsights(cpu, mem, disk, Cpu);
    EvaluateCases(Cpu, cpu);
  }

  /** Memory: the same rules with thresholds 85 and 30. */
  lemma MemoryRule(cpu: Float, mem: Float, disk: Float)
    ensures var about := About(InsightsNow(cpu, mem, disk).insights, Memory);
            && (mem.Gt(85.0) ==> |about| == 1 && about[0].severity == Critical && about[0].title == HighUsage(Memory, mem))
            && (mem.Lt(30.0) ==> |about| == 1 && about[0].severity == Info && about[0].title == LowUsage(Memory, mem))
            && (mem.Finite? && 30.0 <= mem.r <= 85.0 ==> about == [])
  {
    ResourceInsights(cpu, mem, disk, Memory);
    EvaluateCases(Memory, mem);
  }

  /** Disk: the same rules with thresholds 80 and 50. */
  lemma DiskRule(cpu: Float, mem: Float, disk: Float)
    ensures var about := About(InsightsNow(cpu, mem, disk).insights, Disk);
            && (disk.Gt(80.0) ==> |about| == 1 && about[0].severity == Critical && about[0].title == HighUsage(Disk, disk))
            && (disk.Lt(50.0) ==> |about| == 1 && about[0].severity == Info && about[0].title == LowUsage(Disk, disk))
            && (disk.Finite? && 50.0 <= disk.r <= 80.0 ==> about == [])
  {
    ResourceInsights(cpu, mem, disk, Disk);
    EvaluateCases(Disk, disk);
  }

  /** The output has one insight per resource outside its middle band, plus the cost hint. */
  lemma InsightCount(cpu: Float, mem: Float, disk: Float)
    ensures |InsightsNow(cpu, mem, disk).insights|
            == 1 + (if Evaluate(Cpu, cpu) == [] then 0 else 1)
                 + (if Evaluate(Memory, mem) == [] then 0 else 1)
                 + (if Evaluate(Disk, disk) == [] then 0 else 1)
  {
  }

  /** Every insight is its title's template: the severity is the one that template is emitted with. */
  lemma InsightsFollowTemplates(cpu: Float, mem: Float, disk: Float)
    ensures forall i | i in InsightsNow(cpu, mem, disk).insights :: i == MakeInsight(i.title)
  {
    var r := InsightsNow(cpu, mem, disk).insights;
    forall i | i in r
      ensures i == MakeInsight(i.title)
    {
      if i in Evaluate(Cpu, cpu) + Evaluate(Memory, mem) + Evaluate(Disk, disk) {
        assert i in Evaluate(Cpu, cpu) || i in Evaluate(Memory, mem) || i in Evaluate(Disk, disk);
      }
    }
  }

  /**
   * Classification is monotonic in the percentage: raising a value never
   * leaves the critical band, and lowering it never leaves the low band.
   */
  lemma SeverityMonotone(k: Resource, x: Float, y: Float)
    requires x.Le(y)
    ensures Evaluate(k, x) != [] && Evaluate(k, x)[0].severity == Critical
            ==> Evaluate(k, y) != [] && Evaluate(k, y)[0].severity == Critical
    ensures Evaluate(k, y) != [] && Evaluate(k, y)[0].severity == Info
            ==> Evaluate(k, x) != [] && Evaluate(k, x)[0].severity == Info
  {
    ComparisonMonotone(x, y, HighThreshold(k));
    ComparisonMonotone(x, y, LowThreshold(k));
  }
}

=== FILE: promquery.dfy ===
/**
 * Interpretation of a Prometheus instant-query response (`q`, lines 22-37 of
 * app/ai-insights/main.py).
 *
 * The outbound HTTP request is not modelled; only its outcome is: no response
 * at all, or a status code with a body that did or did not decode as JSON.
 * The response shape follows the Prometheus HTTP API: an object with
 * `status`, and on success `data.resultType` and `data.result`; an instant
 * vector is a list of samples `{"metric": {...}, "value": [ts, "text"]}`, a
 * range vector a list of series `{"metric": {...}, "values": [[ts, "text"], ...]}`,
 * and a scalar the bare pair `[ts, "text"]`.
 */
module PromQuery {
  import opened Wrappers
  import opened Floats
  import opened PyJson

  /** What `requests.get(...)` followed by `r.json()` produced. */
  datatype HttpOutcome =
    | NoResponse                                 // requests.get raised: refused, reset, DNS, 8-second timeout
    | Response(code: int, body: Option<Json>)    // body None: r.json() raised on text that is not JSON

  /** The codes for which `raise_for_status` raises: client and server errors. */
  predicate IsHttpError(code: int) {
    400 <= code < 600
  }

  /** The decoded body, when neither the request, `raise_for_status` nor `r.json()` raised. */
  function Body(resp: HttpOutcome): (r: Option<Json>)
    ensures r.Some? <==> resp.Response? && !IsHttpError(resp.code) && resp.body.Some?
    ensures r.Some? ==> r == resp.body
  {
    match resp
    case NoResponse => None
    case Response(code, body) => if IsHttpError(code) then None else body
  }

  /** A value, or NaN when the query produced none (`return float("nan")`). */
  function OrNaN(v: Option<Float>): (f: Float)
    ensures v.None? ==> f.NaN?
    ensures v.Some? ==> f == v.value
  {
    match v
    case None => NaN
    case Some(x) => x
  }

  /** `data["data"]` of a body whose `status` is "success"; None when the status differs or a lookup raises. */
  function SuccessData(data: Json): (r: Option<Json>)
    ensures r.Some? <==> data.Obj? && "status" in data.fields && data.fields["status"] == Str("success")
                         && "data" in data.fields
    ensures r.Some? ==> r.value == data.fields["data"]
  {
    var status :- Get(data, "status", Null);
    if status != Str("success") then None else Field(data, "data")
  }

  /**
   * The pair `val` taken from the first sample: its `value` when that is truthy,
   * otherwise the last entry of its `values` (or None, Python's `[None][-1]`,
   * when there is no `values` key).
   */
  function SelectPair(first: Json): (r: Option<Json>)
    ensures !first.Obj? ==> r.None?
    ensures first.Obj? && "value" in first.fields && Truthy(first.fields["value"])
            ==> r == Some(first.fields["value"])
    ensures first.Obj? && !("value" in first.fields && Truthy(first.fields["value"]))
            ==> r == (if "values" in first.fields then At(first.fields["values"], -1) else Some(Null))
  {
    if !first.Obj? then None  // AttributeError: only dicts have `get`
    else
      var value := Get(first, "value", Null).value;
      if Truthy(value) then Some(value)
      else At(Get(first, "values", Arr([Null])).value, -1)
  }

  /** `float(val[1])` for the pair chosen from the first element of `result`. */
  function FirstSampleValue(result: Json, parse: string -> Option<Float>): Option<Float> {
    if !Truthy(result) then None
    else
      var first :- At(result, 0);
      var pair :- SelectPair(first);
      var x :- At(pair, 1);
      ToFloat(x, parse)
  }

  /** `float(result[1])` for a scalar result `[ts, "text"]`. */
  function ScalarValue(result: Json, parse: string -> Option<Float>): Option<Float> {
    var x :- At(result, 1);
    ToFloat(x, parse)
  }

  /** The try-block of `q` after decoding, as written; None when it returns or raises into NaN. */
  function ReadSample(data: Json, parse: string -> Option<Float>): Option<Float> {
    var inner :- SuccessData(data);
    var result :- Field(inner, "result");
    FirstSampleValue(result, parse)
  }

  /**
   * A "success" body as the Prometheus HTTP API describes it for vectors and
   * matrices: a dict whose `data` dict holds a non-empty `result` list.
   */
  predicate HasSampleList(data: Json) {
    && data.Obj? && "status" in data.fields && data.fields["status"] == Str("success")
    && "data" in data.fields && data.fields["data"].Obj? && "result" in data.fields["data"].fields
    && data.fields["data"].fields["result"].Arr? && |data.fields["data"].fields["result"].items| > 0
  }

  /** The first element of such a body's result list. */
  function FirstSample(data: Json): Json
    requires HasSampleList(data)
  {
    data.fields["data"].fields["result"].items[0]
  }

  /** `float(val[1])` for the pair `val` selected from a sample; None when a step raises. */
  function PairValue(sample: Json, parse: string -> Option<Float>): Option<Float> {
    match SelectPair(sample)
    case None => None
    case Some(pair) =>
      match At(pair, 1)
      case None => None
      case Some(x) => ToFloat(x, parse)
  }

  /**
   * `q` as written: NaN when no body is decoded or the body holds no sample
   * list; otherwise `float(val[1])` for the pair selected from the first
   * sample, or NaN when that raises.
   */
  function InstantValue(resp: HttpOutcome, parse: string -> Option<Float>): (f: Float)
    ensures resp.NoResponse? ==> f.NaN?
    ensures resp.Response? && IsHttpError(resp.code) ==> f.NaN?
    ensures resp.Response? && resp.body.None? ==> f.NaN?
    ensures Body(resp).Some? && !HasSampleList(Body(resp).value) ==> f.NaN?
    ensures Body(resp).Some? && HasSampleList(Body(resp).value)
            ==> f == OrNaN(PairValue(FirstSample(Body(resp).value), parse))
  {
    match Body(resp)
    case None => NaN
    case Some(data) => OrNaN(ReadSample(data, parse))
  }

  /** A body whose `data.resultType` is "scalar". */
  predicate IsScalarBody(inner: Json) {
    Field(inner, "resultType") == Some(Str("scalar"))
  }

  /** A "success" body whose `data` dict declares `resultType` "scalar". */
  predicate IsScalarReply(data: Json) {
    && data.Obj? && "status" in data.fields && data.fields["status"] == Str("success")
    && "data" in data.fields && data.fields["data"].Obj?
    && "resultType" in data.fields["data"].fields
    && data.fields["data"].fields["resultType"] == Str("scalar")
  }

  /** The try-block of `q` as its docstring describes it: scalar results are read too. */
  function ReadSampleScalarAware(data: Json, parse: string -> Option<Float>): Option<Float> {
    var inner :- SuccessData(data);
    var result :- Field(inner, "result");
    if IsScalarBody(inner) then ScalarValue(result, parse) else FirstSampleValue(result, parse)
  }

  /**
   * `q` with the scalar case handled: "the first scalar/vector value as float".
   * A scalar reply yields `float(result[1])`; every other reply yields what
   * `q` as written yields.
   */
  function InstantValueScalarAware(resp: HttpOutcome, parse: string -> Option<Float>): (f: Float)
    ensures !(Body(resp).Some? && IsScalarReply(Body(resp).value)) ==> f == InstantValue(resp, parse)
    ensures Body(resp).Some? && IsScalarReply(Body(resp).value)
            ==> var inner := Body(resp).value.fields["data"].fields;
                f == (if "result" in inner && At(inner["result"], 1).Some?
                      then OrNaN(ToFloat(At(inner["result"], 1).value, parse))
                      else NaN)
  {
    match Body(resp)
    case None => NaN
    case Some(data) => OrNaN(ReadSampleScalarAware(data, parse))
  }

  // ---------------------------------------------------------------------------
  // Response bodies as the Prometheus HTTP API lays them out.

  function Labels(metric: map<string, string>): map<string, Json> {
    map k | k in metric :: Str(metric[k])
  }

  function SuccessBody(resultType: string, result: Json): Json {
    Obj(map["status" := Str("success"),
            "data" := Obj(map["resultType" := Str(resultType), "result" := result])])
  }

  function ErrorBody(errorType: string, error: string): Json {
    Obj(map["status" := Str("error"), "errorType" := Str(errorType), "error" := Str(error)])
  }

  function Point(ts: real, text: string): Json {
    Arr([Num(Finite(ts)), Str(text)])
  }

  /** One sample of an instant vector. */
  function InstantSample(metric: map<string, string>, ts: real, text: string): Json {
    Obj(map["metric" := Obj(Labels(metric)), "value" := Point(ts, text)])
  }

  /** One series of a range vector. */
  function RangeSeries(metric: map<string, string>, points: seq<(real, string)>): Json {
    Obj(map["metric" := Obj(Labels(metric)),
            "values" := Arr(seq(|points|, i requires 0 <= i < |points| => Point(points[i].0, points[i].1)))])
  }

  // ---------------------------------------------------------------------------
  // Properties of `q`.

  /** An instant vector yields its first sample's value text, parsed; a text that does not parse yields NaN. */
  lemma VectorRoundTrip(code: int, metric: map<string, string>, ts: real, text: string, rest: seq<Json>,
                        parse: string -> Option<Float>)
    requires !IsHttpError(code)
    ensures InstantValue(Response(code, Some(SuccessBody("vector", Arr([InstantSample(metric, ts, text)] + rest)))), parse)
            == OrNaN(parse(text))
  {
    var first := InstantSample(metric, ts, text);
    assert SelectPair(first) == Some(Point(ts, text));
  }

  /** A range vector yields the last point of its first series. */
  lemma MatrixRoundTrip(code: int, metric: map<string, string>, points: seq<(real, string)>, rest: seq<Json>,
                        parse: string -> Option<Float>)
    requires !IsHttpError(code)
    requires |points| > 0
    ensures InstantValue(Response(code, Some(SuccessBody("matrix", Arr([RangeSeries(metric, points)] + rest)))), parse)
            == OrNaN(parse(points[|points| - 1].1))
  {
    var first := RangeSeries(metric, points);
    var last := points[|points| - 1];
    assert "value" !in first.fields;
    assert SelectPair(first) == Some(Point(last.0, last.1));
  }

  /** An empty result list yields NaN, whatever its type. */
  lemma EmptyResultIsMissing(code: int, resultType: string, parse: string -> Option<Float>)
    ensures InstantValue(Response(code, Some(SuccessBody(resultType, Arr([])))), parse).NaN?
  {
  }

  /** A body whose status is not "success" yields NaN; the API's error body is one. */
  lemma FailedStatusIsMissing(code: int, data: Json, parse: string -> Option<Float>)
    requires Get(data, "status", Null) != Some(Str("success"))
    ensures InstantValue(Response(code, Some(data)), parse).NaN?
  {
  }

  lemma ErrorBodyIsMissing(code: int, errorType: string, error: string, parse: string -> Option<Float>)
    ensures InstantValue(Response(code, Some(ErrorBody(errorType, error))), parse).NaN?
  {
    FailedStatusIsMissing(code, ErrorBody(errorType, error), parse);
  }

  /** A first sample with neither a truthy `value` nor a `values` key yields NaN. */
  lemma NoPairIsMissing(code: int, first: Json, rest: seq<Json>, resultType: string, parse: string -> Option<Float>)
    requires first.Obj?
    requires "value" !in first.fields || !Truthy(first.fields["value"])
    requires "values" !in first.fields
    ensures InstantValue(Response(code, Some(SuccessBody(resultType, Arr([first] + rest)))), parse).NaN?
  {
  }

  /**
   * Conversely, a value other than NaN comes only from a decoded "success"
   * body whose non-empty result list starts with an object, and it is
   * `float(val[1])` for the pair selected from that object.
   */
  lemma ValueProvenance(resp: HttpOutcome, parse: string -> Option<Float>)
    requires !InstantValue(resp, parse).NaN?
    ensures resp.Response? && !IsHttpError(resp.code) && resp.body.Some?
    ensures var data := resp.body.value;
            && data.Obj? && "status" in data.fields && data.fields["status"] == Str("success")
            && "data" in data.fields && data.fields["data"].Obj? && "result" in data.fields["data"].fields
    ensures var result := resp.body.value.fields["data"].fields["result"];
            && result.Arr? && |result.items| > 0 && result.items[0].Obj?
            && SelectPair(result.items[0]).Some?
            && At(SelectPair(result.items[0]).value, 1).Some?
            && ToFloat(At(SelectPair(result.items[0]).value, 1).value, parse) == Some(InstantValue(resp, parse))
  {
    var data := Body(resp).value;
    var inner := SuccessData(data).value;
    assert Field(inner, "result").Some?;
  }

  // ---------------------------------------------------------------------------
  // The scalar case.

  function ScalarBody(ts: real, text: string): Json {
    SuccessBody("scalar", Point(ts, text))
  }

  /** As written, a scalar result always yields NaN: `result[0]` is the timestamp, which has no `get`. */
  lemma ScalarResultIsMissing(code: int, ts: real, text: string, parse: string -> Option<Float>)
    requires !IsHttpError(code)
    ensures InstantValue(Response(code, Some(ScalarBody(ts, text))), parse).NaN?
  {
    assert At(Point(ts, text), 0) == Some(Num(Finite(ts)));
  }

  /** With the scalar case handled, a scalar result yields its parsed value text. */
  lemma ScalarRoundTrip(code: int, ts: real, text: string, parse: string -> Option<Float>)
    requires !IsHttpError(code)
    ensures InstantValueScalarAware(Response(code, Some(ScalarBody(ts, text))), parse) == OrNaN(parse(text))
  {
    var data := ScalarBody(ts, text);
    assert SuccessData(data) == Some(Obj(map["resultType" := Str("scalar"), "result" := Point(ts, text)]));
  }

  /** Away from scalar results the handled version is exactly `q` as written. */
  lemma ScalarAwareAgreesElsewhere(resp: HttpOutcome, parse: string -> Option<Float>)
    requires Body(resp).Some? ==> !IsScalarReply(Body(resp).value)
    ensures InstantValueScalarAware(resp, parse) == InstantValue(resp, parse)
  {
  }
}

=== FILE: pyjson.dfy ===
/**
 * The value `r.json()` hands back, and the few Python operations the query
 * code applies to it. Each operation returns `None` exactly when Python would
 * raise (AttributeError, KeyError, IndexError, TypeError or ValueError).
 */
module PyJson {
  import opened Wrappers
  import opened Floats

  /** A decoded JSON document: Python's None, bool, int/float, str, list and dict. */
  datatype Json =
    | Null
    | Bool(b: bool)
    | Num(n: Float)
    | Str(s: string)
    | Arr(items: seq<Json>)
    | Obj(fields: map<string, Json>)

  /**
   * Python's truth value of a decoded JSON value (`if not x`, `x or y`): the
   * falsy values are exactly None, False, zero and the empty containers.
   */
  predicate Truthy(j: Json): (b: bool)
    ensures !b <==> j in {Null, Bool(false), Num(Finite(0.0)), Str(""), Arr([]), Obj(map[])}
  {
    match j
    case Null => false
    case Bool(b) => b
    case Num(n) => n != Finite(0.0)
    case Str(s) => |s| > 0
    case Arr(items) => |items| > 0
    case Obj(fields) => |fields| > 0
  }

  /** `j.get(key, default)`: only dicts have `get`. */
  function Get(j: Json, key: string, default: Json): (r: Option<Json>)
    ensures r.Some? <==> j.Obj?
    ensures j.Obj? && key in j.fields ==> r == Some(j.fields[key])
    ensures j.Obj? && key !in j.fields ==> r == Some(default)
  {
    match j
    case Obj(fields) => Some(if key in fields then fields[key] else default)
    case _ => None
  }

  /** `j[key]` with a string key: a dict lookup; lists and strings refuse string keys. */
  function Field(j: Json, key: string): (r: Option<Json>)
    ensures r.Some? <==> j.Obj? && key in j.fields
    ensures r.Some? ==> r.value == j.fields[key]
  {
    match j
    case Obj(fields) => if key in fields then Some(fields[key]) else None
    case _ => None
  }

  /** Python's reading of index `i` into a sequence of length `n`, or -1 when out of range. */
  function Position(i: int, n: nat): (p: int)
    ensures -1 <= p < n
    ensures p >= 0 <==> 0 <= n + i && i < n
    ensures p >= 0 && i >= 0 ==> p == i
    ensures p >= 0 && i < 0 ==> p + (-i) == n
  {
    if 0 <= i < n then i
    else if 0 <= n + i && i < 0 then n + i
    else -1
  }

  /**
   * `j[i]` with an integer index: negative indices count from the end of a
   * list or string; a dict has only string keys, so the lookup fails.
   */
  function At(j: Json, i: int): (r: Option<Json>)
    ensures r.Some? <==> (j.Arr? && -|j.items| <= i < |j.items|) || (j.Str? && -|j.s| <= i < |j.s|)
    ensures r.Some? && j.Arr? ==> r.value == j.items[Position(i, |j.items|)]
    ensures r.Some? && j.Str? ==> r.value == Str([j.s[Position(i, |j.s|)]])
  {
    match j
    case Arr(items) =>
      var p := Position(i, |items|);
      if p >= 0 then Some(items[p]) else None
    case Str(s) =>
      var p := Position(i, |s|);
      if p >= 0 then Some(Str([s[p]])) else None
    case _ => None
  }

  /** Index -1 is the last element, 0 the first. */
  lemma AtEnds(items: seq<Json>)
    requires |items| > 0
    ensures At(Arr(items), -1) == Some(items[|items| - 1])
    ensures At(Arr(items), 0) == Some(items[0])
  {
  }

  /**
   * `float(j)`: numbers convert to themselves, booleans to 1.0 and 0.0, and
   * strings through `parse` (None models the ValueError of text that is not a
   * float); None, lists and dicts raise TypeError.
   */
  function ToFloat(j: Json, parse: string -> Option<Float>): (r: Option<Float>)
    ensures j.Num? ==> r == Some(j.n)
    ensures j.Bool? ==> r == Some(Finite(if j.b then 1.0 else 0.0))
    ensures j.Str? ==> r == parse(j.s)
    ensures j.Null? || j.Arr? || j.Obj? ==> r == None
  {
    match j
    case Num(n) => Some(n)
    case Bool(b) => Some(Finite(if b then 1.0 else 0.0))
    case Str(s) => parse(s)
    case _ => None
  }
}

=== FILE: service.dfy ===
/**
 * `insights_now` end to end (lines 46-165 of app/ai-insights/main.py): three
 * query outcomes, each read by `q` and passed through `safe`, feed the rule
 * engine.
 */
module Service {
  import opened Wrappers
  import opened Floats
  import opened PyJson
  import opened PromQuery
  import opened Insights

  /** A Python value as `safe` inspects it: a float, an int (bool included), or anything else. */
  datatype PyValue = FloatValue(f: Float) | IntValue(i: int) | OtherValue

  /** `safe(v, default)` (lines 39-40): keep a number, otherwise fall back to `default`. */
  function Safe(v: PyValue, default: Float): (r: Float)
    ensures v.FloatValue? ==> r == v.f
    ensures v.IntValue? ==> r == Finite(v.i as real)
    ensures v.OtherValue? ==> r == default
  {
    match v
    case FloatValue(f) => f
    case IntValue(i) => Finite(i as real)
    case OtherValue => default
  }

  /** `safe(q(query))` for one query's outcome; `q` always returns a float, so `safe` keeps it. */
  function Percentage(resp: HttpOutcome, parse: string -> Option<Float>): (f: Float)
    ensures f == InstantValue(resp, parse)
  {
    Safe(FloatValue(InstantValue(resp, parse)), NaN)
  }

  /** The response of `GET /insights/now` for the outcomes of the CPU, memory and disk queries. */
  function InsightsFromBackend(cpuResp: HttpOutcome, memResp: HttpOutcome, diskResp: HttpOutcome,
                               parse: string -> Option<Float>): (r: InsightResponse)
    ensures r.status == "ok"
    ensures r.raw.Keys == {"cpu_pct", "mem_pct", "disk_pct"}
    ensures r.raw["cpu_pct"] == InstantValue(cpuResp, parse)
    ensures r.raw["mem_pct"] == InstantValue(memResp, parse)
    ensures r.raw["disk_pct"] == InstantValue(diskResp, parse)
    ensures forall k: Resource :: About(r.insights, k)
              == Evaluate(k, ValueOf(k, InstantValue(cpuResp, parse), InstantValue(memResp, parse),
                                     InstantValue(diskResp, parse)))
    ensures 1 <= |r.insights| <= 4
    ensures r.insights[|r.insights| - 1] == CostHint()
  {
    var cpu, mem, disk := Percentage(cpuResp, parse), Percentage(memResp, parse), Percentage(diskResp, parse);
    EveryResourceInsights(cpu, mem, disk);
    InsightsNow(cpu, mem, disk)
  }

  /** `ResourceInsights` for the three resources at once. */
  lemma EveryResourceInsights(cpu: Float, mem: Float, disk: Float)
    ensures forall k: Resource :: About(InsightsNow(cpu, mem, disk).insights, k) == Evaluate(k, ValueOf(k, cpu, mem, disk))
  {
    forall k: Resource {
      ResourceInsights(cpu, mem, disk, k);
    }
  }

  /** The same handler with the scalar case of `q` handled. */
  function InsightsFromBackendScalarAware(cpuResp: HttpOutcome, memResp: HttpOutcome, diskResp: HttpOutcome,
                                          parse: string -> Option<Float>): (r: InsightResponse)
    ensures r.status == "ok"
    ensures r.raw.Keys == {"cpu_pct", "mem_pct", "disk_pct"}
    ensures r.raw["cpu_pct"] == InstantValueScalarAware(cpuResp, parse)
    ensures r.raw["mem_pct"] == InstantValueScalarAware(memResp, parse)
    ensures r.raw["disk_pct"] == InstantValueScalarAware(diskResp, parse)
    ensures forall k: Resource :: About(r.insights, k)
              == Evaluate(k, ValueOf(k, InstantValueScalarAware(cpuResp, parse), InstantValueScalarAware(memResp, parse),
                                     InstantValueScalarAware(diskResp, parse)))
    ensures 1 <= |r.insights| <= 4
    ensures r.insights[|r.insights| - 1] == CostHint()
  {
    var cpu, mem, disk := InstantValueScalarAware(cpuResp, parse), InstantValueScalarAware(memResp, parse),
                          InstantValueScalarAware(diskResp, parse);
    EveryResourceInsights(cpu, mem, disk);
    InsightsNow(cpu, mem, disk)
  }

  /** A reply that is not a scalar result gets the same treatment from both handlers. */
  predicate NotScalar(resp: HttpOutcome) {
    Body(resp).Some? ==> !IsScalarReply(Body(resp).value)
  }

  /** When no reply is a scalar result, handling the scalar case changes nothing. */
  lemma HandlersAgree(cpuResp: HttpOutcome, memResp: HttpOutcome, diskResp: HttpOutcome,
                      parse: string -> Option<Float>)
    requires NotScalar(cpuResp) && NotScalar(memResp) && NotScalar(diskResp)
    ensures InsightsFromBackendScalarAware(cpuResp, memResp, diskResp, parse)
            == InsightsFromBackend(cpuResp, memResp, diskResp, parse)
  {
    ScalarAwareAgreesElsewhere(cpuResp, parse);
    ScalarAwareAgreesElsewhere(memResp, parse);
    ScalarAwareAgreesElsewhere(diskResp, parse);
  }

  /** With the backend unreachable every metric is missing: three warnings, then the cost hint. */
  lemma BackendDownWarnsThrice(parse: string -> Option<Float>)
    ensures InsightsFromBackend(NoResponse, NoResponse, NoResponse, parse).insights
            == [MakeInsight(NoMetrics(Cpu))] + [MakeInsight(NoMetrics(Memory))] + [MakeInsight(NoMetrics(Disk))] + [CostHint()]
  {
    assert Percentage(NoResponse, parse) == NaN;
    AllMissing();
  }

  lemma AllMissing()
    ensures InsightsNow(NaN, NaN, NaN).insights
            == [MakeInsight(NoMetrics(Cpu))] + [MakeInsight(NoMetrics(Memory))] + [MakeInsight(NoMetrics(Disk))] + [CostHint()]
  {
  }

  /**
   * A 2xx/3xx reply holding an instant vector: a first sample whose value
   * text is `text`, followed by any further results.
   */
  datatype VectorReply = VectorReply(code: int, metric: map<string, string>, ts: real, text: string, rest: seq<Json>)
  {
    predicate Valid() {
      !IsHttpError(code)
    }

    function Outcome(): HttpOutcome {
      Response(code, Some(SuccessBody("vector", Arr([InstantSample(metric, ts, text)] + rest))))
    }
  }

  /** On such a reply both readings of `q` yield the parsed value text of the first sample. */
  lemma VectorPercentage(v: VectorReply, parse: string -> Option<Float>)
    requires v.Valid()
    ensures NotScalar(v.Outcome())
    ensures Percentage(v.Outcome(), parse) == OrNaN(parse(v.text))
    ensures InstantValueScalarAware(v.Outcome(), parse) == OrNaN(parse(v.text))
  {
    VectorRoundTrip(v.code, v.metric, v.ts, v.text, v.rest, parse);
    ScalarAwareAgreesElsewhere(v.Outcome(), parse);
  }

  /**
   * For the vector results the three node-wide queries return, each from its
   * own reply, the handler gives the rule engine applied to the three parsed
   * sample texts.
   */
  lemma VectorQueries(cpu: VectorReply, mem: VectorReply, disk: VectorReply, parse: string -> Option<Float>)
    requires cpu.Valid() && mem.Valid() && disk.Valid()
    ensures InsightsFromBackend(cpu.Outcome(), mem.Outcome(), disk.Outcome(), parse)
            == InsightsNow(OrNaN(parse(cpu.text)), OrNaN(parse(mem.text)), OrNaN(parse(disk.text)))
  {
    VectorPercentage(cpu, parse);
    VectorPercentage(mem, parse);
    VectorPercentage(disk, parse);
  }

  /** On such replies the corrected handler gives the same response. */
  lemma VectorQueriesScalarAware(cpu: VectorReply, mem: VectorReply, disk: VectorReply, parse: string -> Option<Float>)
    requires cpu.Valid() && mem.Valid() && disk.Valid()
    ensures InsightsFromBackendScalarAware(cpu.Outcome(), mem.Outcome(), disk.Outcome(), parse)
            == InsightsNow(OrNaN(parse(cpu.text)), OrNaN(parse(mem.text)), OrNaN(parse(disk.text)))
  {
    VectorPercentage(cpu, parse);
    VectorPercentage(mem, parse);
    VectorPercentage(disk, parse);
    HandlersAgree(cpu.Outcome(), mem.Outcome(), disk.Outcome(), parse);
    VectorQueries(cpu, mem, disk, parse);
  }
}

=== FILE: wrappers.dfy ===
/** Failure-compatible Option type shared by the modules of the insights engine. */
module Wrappers {

  datatype Option<+T> = None | Some(value: T) {

    predicate IsFailure() {
      None?
    }

    function PropagateFailure<U>(): Option<U>
      requires None?
    {
      None
    }

    function Extract(): T
      requires Some?
    {
      value
    }
  }
}
